=== FILE: README.md ===
# Barber booking: availability engine and state updates

A Dafny model of the booking core of a small barber-shop web application.
The core has three parts:

- **Slot computation** (`src/components/BookingWidget.jsx`):
  - conversion between `HH:MM` strings and minutes of the day;
  - the offered start times for a service on a date. The computation walks
    the opening window in 15-minute steps, drops every candidate whose
    half-open interval overlaps an appointment on the same date, and keeps
    the candidates on the 30-minute grid measured from the opening time;
  - the record the confirm button builds;
  - what the "Available Times" area shows: the closed notice, the no-slots
    notice, or one button per time.
- **Configuration edits** (`src/components/AdminPanel.jsx`):
  - toggling a working day, which keeps the list sorted and duplicate-free;
  - adding a service type after validating its inputs;
  - removing a service type by id.
- **Application state** (`src/App.jsx`):
  - the initial configuration: three service types, Monday to Saturday,
    09:00 to 18:00, and no appointments;
  - the three callbacks `onBook`, `onRemove` and `onUpdateConfig`.

Modules, one per file:

| module | file | contents |
|---|---|---|
| `Wrappers` | wrappers.dfy | `Option` |
| `Seqs` | seqs.dfy | order-preserving filter; sorted, duplicate-free arrangement of a set of integers |
| `TimeOfDay` | time_of_day.dfy | `timeStringToMinutes` as `ParseTime`, `minutesToTimeString` as `FormatTime`, the round trips |
| `Schedule` | schedule.dfy | records: `Date`, `ServiceType`, `Appointment`, `Config`, `ConfigChanges`; `isSameDate` |
| `BookingWidget` | booking_widget.dfy | blocks, overlap, the slot walk and its declarative meaning `Bookable`, the panel, `handleBook` |
| `AdminPanel` | admin_panel.dfy | `toggleDay`, `addType`, `removeType` |
| `App` | app.dfy | the state, the callbacks, the admin and booking actions, concrete scenarios |

Modelling choices:

- JavaScript's `Number` is modelled only for what these strings can hold.
  A field of decimal digits is its value. The empty field is 0. Anything
  else is `NaN`, which is `None`.
- A string with no colon leaves the minutes `undefined`, so the sum is
  `NaN`: `ParseTime` returns `None`.
- A blocked interval whose appointment time does not parse is
  `[NaN, NaN)`. The test `!(e <= NaN || s >= NaN)` is then true, so that
  block conflicts with every candidate. The model keeps this as the block
  `Unreadable`.
- An opening or closing time that does not parse makes the loop condition
  false at once, so no slot is offered.
- Candidates never precede the opening time, so JavaScript's `%` and
  Dafny's agree on `(t - start) % 30`.
- The weekday of a date is passed alongside it (`dow`, 0 = Sunday). A
  date is a year, month and day.

Two behaviours of the code are worth stating explicitly:

- **No overlap check when booking.** `handleBook` and `onBook` append the
  record without any overlap check (BookingWidget.jsx:76-88,
  App.jsx:25-28). `selectedTime` survives a change of date or service
  (BookingWidget.jsx:103, 118), so a user who picks 09:00 and then
  switches to a day or service where 09:00 is taken can still book it.
  `App.StaleSelectionDoubleBooks` shows the consequence: its second
  `BookAction` stands for that path, 09:00 is booked a second time, and
  two appointments occupy 09:00-09:30.
- **Walk step.** The code walks candidates in 15-minute steps and keeps
  only the 30-minute grid points. `GridWalk`, a walk in 30-minute steps
  from the opening time, gives the same list
  (`BookingWidget.WalkMatchesGrid`).

## Model

| member | source | states |
|---|---|---|
| TimeOfDay.ParseTime | src/components/BookingWidget.jsx:5-8 | a string without a colon has no minute value (`NaN`) |
| TimeOfDay.ParseCanonical | src/components/BookingWidget.jsx:5-8 | a zero-padded `HH:MM` string parses to hours times 60 plus minutes |
| TimeOfDay.CanonicalFromChars | src/components/BookingWidget.jsx:5-8 | five characters: two digits, a colon, a digit below 6 and a digit. Such a string is canonical and parses to the minute count its digits spell |
| TimeOfDay.NumberOf | src/components/BookingWidget.jsx:6 | `Number` of a field is defined exactly when the field is all decimal digits, and is then their value |
| TimeOfDay.UpToColon | src/components/BookingWidget.jsx:6 | the first `split(":")` field: a colon-free prefix, followed by a colon whenever the string has one |
| TimeOfDay.Decimal | src/components/BookingWidget.jsx:11-14 | `toString` of a count gives digits whose value is the count, with no leading zero: one digit below 10, two below 100 |
| TimeOfDay.PadDecimal | src/components/BookingWidget.jsx:11-14 | `padStart(2, "0")` of a count below 100 gives two digits with the count's value |
| TimeOfDay.FormatTime | src/components/BookingWidget.jsx:10-16 | the result always has a colon. Below 6000 minutes it is a zero-padded `HH:MM` string whose value is the input |
| TimeOfDay.FormatThenParse | src/components/BookingWidget.jsx:5-16 | parsing a formatted minute count returns it, for every count |
| TimeOfDay.ParseThenFormat | src/components/BookingWidget.jsx:5-16 | formatting the value of a canonical `HH:MM` string returns the string |
| TimeOfDay.HHMMInjective | src/components/BookingWidget.jsx:10-16 | two canonical strings with the same minute value are equal, so the format is one-to-one |
| TimeOfDay.FormatOfCanonical | src/components/BookingWidget.jsx:10-16 | the canonical string of a minute count is what formatting that count produces |
| TimeOfDay.FormatTimeNonEmpty | src/components/BookingWidget.jsx:15 | a formatted time is never empty, so the confirm button accepts it |
| Schedule.IsSameDate | src/components/BookingWidget.jsx:18-24 | equal year, month and day is exactly equality of dates |
| BookingWidget.BlockOfParsed | src/components/BookingWidget.jsx:57-61 | an appointment whose time parses to `m` blocks `[m, m + duration)` |
| BookingWidget.Overlaps | src/components/BookingWidget.jsx:67 | `!(e <= bs \|\| s >= be)` holds exactly when `s < be && bs < e`, so intervals that only touch do not overlap |
| BookingWidget.OverlapsSymmetric | src/components/BookingWidget.jsx:67 | the overlap test is symmetric in the two intervals |
| BookingWidget.BlocksOnMembers | src/components/BookingWidget.jsx:55-61 | the blocks are exactly the blocked intervals of the appointments on the date |
| BookingWidget.AnyConflictExists | src/components/BookingWidget.jsx:67 | `blocks.some(...)` holds exactly when some block conflicts with the candidate |
| BookingWidget.NoConflictIsFree | src/components/BookingWidget.jsx:55-67 | no block conflicts exactly when no appointment on that date conflicts |
| BookingWidget.FreeOnAppend | src/components/BookingWidget.jsx:55-67 | with one more appointment, a candidate is free exactly when it was free before and the new appointment (if on that date) does not conflict with it |
| BookingWidget.Walk | src/components/BookingWidget.jsx:63-72 | every emitted time is at or after the current candidate, leaves room for the service before the end, is on the grid from the opening time and conflicts with no block |
| BookingWidget.WalkSound | src/components/BookingWidget.jsx:63-72 | an emitted time is at or after the candidate, fits before the end, is on the grid and conflicts with no block |
| BookingWidget.WalkIncreasing | src/components/BookingWidget.jsx:64-70 | the walk emits strictly increasing times, with no duplicates |
| BookingWidget.WalkComplete | src/components/BookingWidget.jsx:63-72 | every free grid point in the window at or after the current candidate is emitted |
| BookingWidget.WalkMatchesGrid | src/components/BookingWidget.jsx:52-70 | from a grid point, the 15-minute walk with the 30-minute filter equals a walk in 30-minute steps |
| BookingWidget.GridWalkUnblocked | src/components/BookingWidget.jsx:63-72 | with no blocks, the 30-minute walk from `t` gives `(end - d - t) / 30 + 1` times, the i-th being `t + 30 i` |
| BookingWidget.SlotMinutes | src/components/BookingWidget.jsx:45-48 | no slots without a selected type or on a closed weekday |
| BookingWidget.SlotMinutesIncreasing | src/components/BookingWidget.jsx:63-73 | the offered times are strictly increasing |
| BookingWidget.SlotsComplete | src/components/BookingWidget.jsx:45-74 | a minute is offered exactly when it is `Bookable`: a type is selected, the day is open, the hours parse, the minute is on the grid, the service fits before closing, and no appointment on that date conflicts |
| BookingWidget.OfferedIsBookable | src/components/BookingWidget.jsx:45-74 | soundness: every offered minute is `Bookable` |
| BookingWidget.BookableIsOffered | src/components/BookingWidget.jsx:45-74 | completeness: every `Bookable` minute is offered |
| BookingWidget.NoRoomNoSlots | src/components/BookingWidget.jsx:64 | when the service is longer than the opening window, nothing is offered. Nothing is clipped |
| BookingWidget.UnblockedDaySlots | src/components/BookingWidget.jsx:63-72 | on an open day with no appointments, the offered times are every half hour from the opening time, as many as fit |
| BookingWidget.OtherDatesNeverBlock | src/components/BookingWidget.jsx:55-56 | dropping every appointment on other dates leaves the blocks unchanged |
| BookingWidget.SlotsOfFewer | src/components/BookingWidget.jsx:55-67 | removing appointments never takes an offered time away |
| BookingWidget.SlotsAfterAppend | src/components/BookingWidget.jsx:55-67 | one more appointment removes exactly the offered times whose interval it conflicts with on that date |
| BookingWidget.AvailableSlots | src/components/BookingWidget.jsx:45-74 | one string per offered minute, in order, each parsing back to its minute |
| BookingWidget.Panel | src/components/BookingWidget.jsx:131-155 | the closed notice exactly on a non-working weekday. The no-slots notice exactly on an open day where no time is bookable. Otherwise one button per offered time |
| BookingWidget.NothingOfferedMeansNothingBookable | src/components/BookingWidget.jsx:135 | an empty slot list means no minute is bookable, and conversely |
| BookingWidget.FindType | src/components/BookingWidget.jsx:43 | `find` gives no type exactly when no type has the id, and otherwise the first type with the id |
| BookingWidget.HandleBook | src/components/BookingWidget.jsx:76-88 | no record without a selected type or a selected time. Otherwise the record copies the id, the type's id, name, duration and price, the date and the time |
| AdminPanel.ToggleDay | src/components/AdminPanel.jsx:11-16 | the result is sorted and duplicate-free; `d` is a working day afterwards exactly when it was not before; every other day keeps its membership |
| AdminPanel.ToggleDayTwice | src/components/AdminPanel.jsx:11-16 | toggling the same day twice on a sorted, duplicate-free list returns the list |
| AdminPanel.AddType | src/components/AdminPanel.jsx:20-34 | no update exactly when the name is missing or empty, the duration is NaN or not positive, or the price is NaN, zero or negative. Otherwise exactly one type is appended and the existing types are unchanged |
| AdminPanel.RemoveType | src/components/AdminPanel.jsx:36-40 | the remaining types are exactly those with another id; an absent id changes nothing |
| AdminPanel.RemoveTypeAppend | src/components/AdminPanel.jsx:36-40 | removal distributes over concatenation, so the order of the rest is kept |
| AdminPanel.RemoveTypeIdempotent | src/components/AdminPanel.jsx:36-40 | removing an id twice is the same as once |
| AdminPanel.RemoveUndoesAdd | src/components/AdminPanel.jsx:20-40 | removing a just-added type whose id was unused restores the catalogue |
| App.InitialConfigWellFormed | src/App.jsx:13-20 | the initial days are 1..6 and already sorted and duplicate-free. Every initial type would pass `addType`'s checks. The hours parse to 540 and 1080 |
| App.InitialDays | src/App.jsx:18 | Monday to Saturday, in ascending order |
| App.InitialHours | src/App.jsx:19-20 | "09:00" is minute 540 and "18:00" minute 1080 |
| App.InitialTypesValid | src/App.jsx:13-17 | every initial type has a non-empty name, a positive duration and a positive price, so it would pass `addType`'s checks |
| App.OnBook | src/App.jsx:25-28 | the list grows by one, the new record is last, earlier entries and the configuration are unchanged |
| App.OnRemove | src/App.jsx:30-32 | the remaining appointments are exactly those with another id; an absent id changes nothing |
| App.OnRemoveIdempotent | src/App.jsx:30-32 | cancelling twice is the same as once |
| App.OnRemoveKeepsOrder | src/App.jsx:30-32 | cancelling distributes over any split of the list, so the rest keep their order |
| App.RemoveUndoesBook | src/App.jsx:25-32 | cancelling a just-booked appointment whose id was unused restores the state |
| App.OnUpdateConfig | src/App.jsx:34-39 | each array field is applied when present. Each time field is applied when present and non-empty. Everything else is kept |
| App.OnUpdateConfigIdempotent | src/App.jsx:34-39 | applying the same changes twice is the same as once |
| App.EmptyWorkingDaysClosesEveryDay | src/App.jsx:36 | an empty working-days array is applied, and then every weekday shows the closed notice with no slots |
| App.UpdateTime | src/components/AdminPanel.jsx:18 | an empty value changes nothing; otherwise exactly the chosen time field is set |
| App.ToggleDayFlipsClosedNotice | src/components/AdminPanel.jsx:11-16 | toggling a day flips that day's closed notice and leaves every other weekday's panel and the appointments unchanged |
| App.SameOpenDaysSamePanel | src/components/BookingWidget.jsx:45-90 | the slots and the panel depend on the working days only through whether the weekday is one of them |
| App.AddTypeAction | src/components/AdminPanel.jsx:20-34 | refused input leaves the state unchanged; accepted input appends exactly the new type and changes nothing else |
| App.RemovingTypeKeepsBookings | src/components/AdminPanel.jsx:36-40 | for a given service type, removing a catalogue entry changes neither the appointments nor the times offered for that type: bookings keep their own duration, and the slot computation never reads the catalogue |
| App.RemovingSelectedTypeEmptiesSlots | src/components/BookingWidget.jsx:43-46 | once the selected type is removed from the catalogue, `find` by its id yields no type, so no time is offered on any date |
| App.BookAction | src/components/BookingWidget.jsx:76-88 | without a selected type or time, confirming changes nothing |
| App.BookedAppointment | src/components/BookingWidget.jsx:76-88 | confirming a type and a non-empty time appends exactly one appointment, carrying that date, time and duration |
| App.BlockOfFormatted | src/components/BookingWidget.jsx:57-60 | an appointment booked at the formatted minute `t` blocks `[t, t + duration)` |
| App.BookingTakesItsInterval | src/components/BookingWidget.jsx:55-88 | after booking the formatted minute `t`, a time stays offered for any service exactly when it was offered before and does not overlap the new booking |
| App.CancellationKeepsSlots | src/App.jsx:30-32 | cancelling never takes an offered time away |
| App.RemovalFrees | src/App.jsx:30-32 | once every appointment conflicting with an interval on that date is cancelled, the interval is free |
| App.CancellationFreesSlot | src/App.jsx:30-32 | a grid point in the window whose only conflicting appointments carry the cancelled id is offered after the cancellation |
| App.InitialMondaySlots | src/App.jsx:13-23 | with the initial state, a 30-minute service on a Monday gets 18 times, from "09:00" to "17:30" |
| App.NineToSixEmptyDay | src/components/BookingWidget.jsx:63-72 | on any 09:00-18:00 day with no appointments, a 30-minute service gets 18 times, from "09:00" to "17:30" |
| App.FirstSlotAfterMorningBooking | src/App.jsx:13-28 | with the initial state and a 45-minute booking at 09:00, the first time offered to a 30-minute service is "10:00" |
| App.NineToSixAfterMorningBooking | src/components/BookingWidget.jsx:55-72 | the same on any 09:00-18:00 day |
| App.FirstFreeMinuteAfterMorningBooking | src/components/BookingWidget.jsx:55-72 | the first offered minute after a 45-minute booking at 09:00 is 600 |
| App.MorningBookable | src/components/BookingWidget.jsx:55-72 | after that booking, a 30-minute service is bookable exactly at the grid points from 10:00 to 17:30 |
| App.FormatClock | src/components/BookingWidget.jsx:10-16 | a minute count formats to the five-character time whose digits spell it |
| App.StaleSelectionDoubleBooks | src/components/BookingWidget.jsx:76-88 | once 09:00 is booked it is no longer offered, yet confirming 09:00 again is accepted. Two appointments then block 09:00-09:30 |
| Seqs.RemoveWhereMembers | src/App.jsx:31 | `filter` keeps exactly the elements that are not dropped |
| Seqs.RemoveWhereAppend | src/App.jsx:31 | `filter` distributes over concatenation |
| Seqs.RemoveWhereIdempotent | src/App.jsx:31 | filtering twice by the same test is filtering once |
| Seqs.RemoveWhereNone | src/App.jsx:31 | when nothing is dropped the list is returned unchanged |
| Seqs.SortDistinct | src/components/AdminPanel.jsx:12-15 | `Array.from(new Set(xs)).sort(...)` is strictly increasing and has exactly the elements of `xs` |
| Seqs.InsertDistinct | src/components/AdminPanel.jsx:12-14 | adding to a set, kept sorted: the elements of the list plus the new one, strictly increasing |
| Seqs.StrictlyIncreasingUnique | src/components/AdminPanel.jsx:15 | a sorted, duplicate-free list is determined by its elements, so the iteration order of the set does not matter |
| Seqs.SortDistinctOfSorted | src/components/AdminPanel.jsx:15 | sorting an already sorted, duplicate-free list returns it |

## Left out

- TimeOfDay.NumberOf: JavaScript `Number` also accepts surrounding
  whitespace, a sign, a decimal point, an exponent, `0x`/`0b`/`0o`
  prefixes and `Infinity`. The model reads such a field as `NaN`. The
  configuration times and the offered slots never contain these forms.
- TimeOfDay.ParseTime: inherits the `Number` forms above through
  `NumberOf`, and reads such a time as `NaN`.
- Negative and fractional minute counts are not modelled: minutes are
  `nat`. Parsing only ever produces natural numbers.
- Dates: JavaScript `Date`, `getDay`, `toISOString`, `new Date(a.date)` and
  local/UTC time-zone behaviour are left out. A date is a day value, and its
  weekday is an input. The widget's initial date (today) is not modelled.
- Identifiers: `crypto.randomUUID` is left out. Ids are parameters.
- Prompts: `prompt`, `parseInt` and `parseFloat` in `addType` are user input
  and number parsing. The model takes the parsed values, with `NaN` or a
  cancelled prompt as `None`.
- Price is a JavaScript float; the model uses `real`. Only comparisons with 0
  are made.
- React state, hooks, memoisation, `setActive` page navigation, the
  markup and PropTypes are not modelled. The widget's initially selected
  type id and the clearing of the selected time after booking are UI state.
  The panel is the only rendering choice modelled.
- src/components/AppointmentsPanel.jsx (calendar-file export, download, list
  rendering), src/components/Navbar.jsx and src/components/Hero.jsx are not
  part of this model.
- A conflict check at booking time is not modelled: the code has none. See
  the introduction and `App.StaleSelectionDoubleBooks`.

=== FILE: admin_panel.dfy ===
/** The configuration edits of AdminPanel.jsx: toggling a working day,
    adding a service type after validating its inputs, and removing one.
    Each returns the new value that the panel hands to `onUpdateConfig`. */
module AdminPanel {
  import opened Wrappers
  import opened Seqs
  import opened Schedule

  /** `toggleDay`: put the working days into a set, delete `d` if present
      and add it otherwise, then list the set in ascending order. */
  function ToggleDay(workingDays: seq<int>, d: int): (r: seq<int>)
    ensures StrictlyIncreasing(r)
    ensures d in r <==> d !in workingDays
    ensures forall x :: x != d ==> (x in r <==> x in workingDays)
  {
    RemoveWhereMembers(workingDays, (x: int) => x == d);
    if d in workingDays then SortDistinct(RemoveWhere(workingDays, (x: int) => x == d))
    else SortDistinct(workingDays + [d])
  }

  /** Toggling the same day twice restores a sorted, duplicate-free list. */
  lemma ToggleDayTwice(workingDays: seq<int>, d: int)
    requires StrictlyIncreasing(workingDays)
    ensures ToggleDay(ToggleDay(workingDays, d), d) == workingDays
  {
    var r := ToggleDay(ToggleDay(workingDays, d), d);
    StrictlyIncreasingUnique(r, workingDays);
  }

  /** The values `addType` reads from its three prompts, already parsed:
      the name is None when the prompt is cancelled; duration (`parseInt`)
      and price (`parseFloat`) are None when they parse to `NaN`. */
  datatype TypeInput = TypeInput(name: Option<string>, duration: Option<int>, price: Option<real>)

  /** The checks of `addType`: `!name`, `!duration || duration <= 0` and
      `!price || price < 0` each abandon the addition. A price of 0 is
      falsy, so it is refused too. */
  predicate ValidInput(input: TypeInput)
  {
    && input.name.Some? && input.name.value != ""
    && input.duration.Some? && input.duration.value > 0
    && input.price.Some? && input.price.value > 0.0
  }

  /** `addType`: None when the input is refused (no update is made);
      otherwise the catalogue with one new type appended. */
  function AddType(types: seq<ServiceType>, id: Id, input: TypeInput): (r: Option<seq<ServiceType>>)
    ensures r.None? <==> !ValidInput(input)
    ensures r.Some? ==>
      && |r.value| == |types| + 1
      && r.value[..|types|] == types
      && r.value[|types|] == ServiceType(id, input.name.value, input.duration.value, input.price.value)
  {
    if input.name.None? || input.name.value == "" then None
    else if input.duration.None? || input.duration.value <= 0 then None
    else if input.price.None? || input.price.value == 0.0 || input.price.value < 0.0 then None
    else Some(types + [ServiceType(id, input.name.value, input.duration.value, input.price.value)])
  }

  /** `removeType`: every type with the id is dropped, the rest keep their order. */
  function RemoveType(types: seq<ServiceType>, id: Id): (r: seq<ServiceType>)
    ensures forall t :: t in r <==> t in types && t.id != id
    ensures (forall t :: t in types ==> t.id != id) ==> r == types
  {
    var drop := (t: ServiceType) => t.id == id;
    RemoveWhereMembers(types, drop);
    assert (forall t :: t in types ==> !drop(t)) ==> RemoveWhere(types, drop) == types by {
      if forall t :: t in types ==> !drop(t) {
        RemoveWhereNone(types, drop);
      }
    }
    RemoveWhere(types, drop)
  }

  /** Removing a type with a newType id undoes adding it. */
  lemma RemoveUndoesAdd(types: seq<ServiceType>, id: Id, input: TypeInput)
    requires ValidInput(input)
    requires forall t :: t in types ==> t.id != id
    ensures RemoveType(AddType(types, id, input).value, id) == types
  {
    var added := AddType(types, id, input).value;
    var newType := ServiceType(id, input.name.value, input.duration.value, input.price.value);
    assert added == types + [newType];
    var drop := (t: ServiceType) => t.id == id;
    RemoveWhereAppend(types, [newType], drop);
    assert [newType][1..] == [];
    assert RemoveWhere([newType], drop) == [];
    RemoveWhereNone(types, drop);
  }

  /** Removal preserves order: removing from a concatenation removes from
      each part. */
  lemma RemoveTypeAppend(a: seq<ServiceType>, b: seq<ServiceType>, id: Id)
    ensures RemoveType(a + b, id) == RemoveType(a, id) + RemoveType(b, id)
  {
    RemoveWhereAppend(a, b, (t: ServiceType) => t.id == id);
  }

  /** Removing the same id twice is the same as removing it once. */
  lemma RemoveTypeIdempotent(types: seq<ServiceType>, id: Id)
    ensures RemoveType(RemoveType(types, id), id) == RemoveType(types, id)
  {
    RemoveWhereIdempotent(types, (t: ServiceType) => t.id == id);
  }
}

=== FILE: app.dfy ===
/** The application state of App.jsx: the configuration together with the
    list of appointments, the initial values, and the three callbacks that
    change them (`onBook`, `onRemove`, `onUpdateConfig`). The admin and
    booking actions are the panel computations fed into those callbacks. */
module App {
  import opened Wrappers
  import opened Seqs
  import opened TimeOfDay
  import opened Schedule
  import opened BookingWidget
  import opened AdminPanel

  datatype AppState = AppState(config: Config, appointments: seq<Appointment>)

  /** The initial catalogue; the ids are supplied by the caller. */
  function InitialTypes(cutId: Id, fadeId: Id, beardId: Id): seq<ServiceType>
  {
    [ ServiceType(cutId, "Classic Cut", 30, 25.0),
      ServiceType(fadeId, "Skin Fade", 45, 35.0),
      ServiceType(beardId, "Cut + Beard", 60, 45.0) ]
  }

  /** Monday to Saturday. */
  const InitialWorkingDays: seq<int> := [1, 2, 3, 4, 5, 6]
  const InitialStartTime: string := "09:00"
  const InitialEndTime: string := "18:00"

  /** The initial state: the three service types, Monday to Saturday,
      09:00 to 18:00, and no appointments. */
  function InitialState(cutId: Id, fadeId: Id, beardId: Id): AppState
  {
    AppState(Config(InitialTypes(cutId, fadeId, beardId), InitialWorkingDays, InitialStartTime, InitialEndTime), [])
  }

  /** The initial working days are Monday to Saturday, already in the
      sorted, duplicate-free form `toggleDay` produces; the opening hours
      are minutes 540 to 1080; every initial service type would pass the
      checks of `addType`. */
  lemma InitialConfigWellFormed(cutId: Id, fadeId: Id, beardId: Id)
    ensures var c := InitialState(cutId, fadeId, beardId).config;
      && StrictlyIncreasing(c.workingDays)
      && (forall dow :: dow in c.workingDays <==> 1 <= dow <= 6)
      && (forall t :: t in c.appointmentTypes ==> ValidInput(TypeInput(Some(t.name), Some(t.duration), Some(t.price))))
      && ParseTime(c.startTime) == Some(540)
      && ParseTime(c.endTime) == Some(1080)
  {
    InitialDays();
    InitialTypesValid(cutId, fadeId, beardId);
    InitialHours();
  }

  lemma InitialTypesValid(cutId: Id, fadeId: Id, beardId: Id)
    ensures forall t :: t in InitialTypes(cutId, fadeId, beardId) ==>
      ValidInput(TypeInput(Some(t.name), Some(t.duration), Some(t.price)))
  {
  }

  lemma InitialHours()
    ensures ParseTime(InitialStartTime) == Some(540) && ParseTime(InitialEndTime) == Some(1080)
  {
    ParseNine();
    ParseEighteen();
  }

  lemma ParseNine()
    ensures ParseTime("09:00") == Some(540)
  {
    CanonicalFromChars("09:00");
  }

  lemma ParseEighteen()
    ensures ParseTime("18:00") == Some(1080)
  {
    CanonicalFromChars("18:00");
  }

  lemma InitialDays()
    ensures StrictlyIncreasing(InitialWorkingDays)
    ensures forall dow :: dow in InitialWorkingDays <==> 1 <= dow <= 6
  {
  }

  /** `onBook`: the appointment is appended, nothing else changes. */
  function OnBook(s: AppState, appt: Appointment): (r: AppState)
    ensures r.config == s.config
    ensures |r.appointments| == |s.appointments| + 1
    ensures r.appointments[..|s.appointments|] == s.appointments
    ensures r.appointments[|s.appointments|] == appt
  {
    s.(appointments := s.appointments + [appt])
  }

  /** `onRemove`: every appointment with the id is dropped, the others keep
      their order; an absent id changes nothing. */
  function OnRemove(s: AppState, id: Id): (r: AppState)
    ensures r.config == s.config
    ensures forall a :: a in r.appointments <==> a in s.appointments && a.id != id
    ensures (forall a :: a in s.appointments ==> a.id != id) ==> r == s
  {
    var drop := (a: Appointment) => a.id == id;
    RemoveWhereMembers(s.appointments, drop);
    assert (forall a :: a in s.appointments ==> !drop(a)) ==> RemoveWhere(s.appointments, drop) == s.appointments by {
      if forall a :: a in s.appointments ==> !drop(a) {
        RemoveWhereNone(s.appointments, drop);
      }
    }
    s.(appointments := RemoveWhere(s.appointments, drop))
  }

  /** Cancelling twice is the same as cancelling once. */
  lemma OnRemoveIdempotent(s: AppState, id: Id)
    ensures OnRemove(OnRemove(s, id), id) == OnRemove(s, id)
  {
    RemoveWhereIdempotent(s.appointments, (a: Appointment) => a.id == id);
  }

  /** Cancelling preserves the order of the remaining appointments: it
      distributes over any split of the list. */
  lemma OnRemoveKeepsOrder(s: AppState, front: seq<Appointment>, back: seq<Appointment>, id: Id)
    requires s.appointments == front + back
    ensures OnRemove(s, id).appointments
      == RemoveWhere(front, (a: Appointment) => a.id == id) + RemoveWhere(back, (a: Appointment) => a.id == id)
  {
    RemoveWhereAppend(front, back, (a: Appointment) => a.id == id);
  }

  /** Cancelling a just-booked appointment whose id was fresh restores the
      state before the booking. */
  lemma RemoveUndoesBook(s: AppState, appt: Appointment)
    requires forall a :: a in s.appointments ==> a.id != appt.id
    ensures OnRemove(OnBook(s, appt), appt.id) == s
  {
    var drop := (a: Appointment) => a.id == appt.id;
    RemoveWhereAppend(s.appointments, [appt], drop);
    assert [appt][1..] == [];
    assert RemoveWhere([appt], drop) == [];
    RemoveWhereNone(s.appointments, drop);
  }

  /** A string field of the changes is applied only when truthy: present
      and not empty. Array fields are truthy whenever present, even empty. */
  predicate Truthy(field: Option<string>)
  {
    field.Some? && field.value != ""
  }

  /** `onUpdateConfig`: applies each truthy field of `changes` and keeps the
      others. */
  function OnUpdateConfig(s: AppState, changes: ConfigChanges): (r: AppState)
    ensures r.appointments == s.appointments
    ensures r.config.appointmentTypes == changes.appointmentTypes.GetOr(s.config.appointmentTypes)
    ensures r.config.workingDays == changes.workingDays.GetOr(s.config.workingDays)
    ensures r.config.startTime == if Truthy(changes.startTime) then changes.startTime.value else s.config.startTime
    ensures r.config.endTime == if Truthy(changes.endTime) then changes.endTime.value else s.config.endTime
  {
    var c := s.config;
    var c := if changes.appointmentTypes.Some? then c.(appointmentTypes := changes.appointmentTypes.value) else c;
    var c := if changes.workingDays.Some? then c.(workingDays := changes.workingDays.value) else c;
    var c := if changes.startTime.Some? && changes.startTime.value != "" then c.(startTime := changes.startTime.value) else c;
    var c := if changes.endTime.Some? && changes.endTime.value != "" then c.(endTime := changes.endTime.value) else c;
    s.(config := c)
  }

  /** Applying the same changes twice is the same as applying them once. */
  lemma OnUpdateConfigIdempotent(s: AppState, changes: ConfigChanges)
    ensures OnUpdateConfig(OnUpdateConfig(s, changes), changes) == OnUpdateConfig(s, changes)
  {
  }

  /** An empty working-days array is truthy, so it is applied, and then the
      widget shows the closed notice and offers nothing on every day. */
  lemma EmptyWorkingDaysClosesEveryDay(s: AppState, selected: Option<ServiceType>, date: Date, dow: int)
    ensures var r := OnUpdateConfig(s, ConfigChanges(None, Some([]), None, None));
      && Panel(r.config, r.appointments, selected, date, dow) == ClosedNotice
      && SlotMinutes(r.config, r.appointments, selected, date, dow) == []
  {
  }

  /** The two time fields `updateTime` can set. */
  datatype TimeField = StartTime | EndTime

  /** `updateTime(key, val)`: passes the one field to `onUpdateConfig`. */
  function UpdateTime(s: AppState, key: TimeField, val: string): (r: AppState)
    ensures val == "" ==> r == s
    ensures val != "" && key == StartTime ==> r == s.(config := s.config.(startTime := val))
    ensures val != "" && key == EndTime ==> r == s.(config := s.config.(endTime := val))
  {
    match key
    case StartTime => OnUpdateConfig(s, ConfigChanges(None, None, Some(val), None))
    case EndTime => OnUpdateConfig(s, ConfigChanges(None, None, None, Some(val)))
  }

  /** The admin panel's day button: `toggleDay` fed into `onUpdateConfig`. */
  function ToggleDayAction(s: AppState, d: int): AppState
  {
    OnUpdateConfig(s, ConfigChanges(None, Some(ToggleDay(s.config.workingDays, d)), None, None))
  }

  /** Toggling a day swaps the closed notice on that day and leaves every
      other weekday's panel, and the appointments, unchanged. */
  lemma ToggleDayFlipsClosedNotice(s: AppState, d: int, selected: Option<ServiceType>, date: Date, dow: int)
    ensures var r := ToggleDayAction(s, d);
      && r.appointments == s.appointments
      && (Panel(r.config, r.appointments, selected, date, d).ClosedNotice?
          <==> !Panel(s.config, s.appointments, selected, date, d).ClosedNotice?)
      && (dow != d ==> Panel(r.config, r.appointments, selected, date, dow) == Panel(s.config, s.appointments, selected, date, dow))
  {
    var r := ToggleDayAction(s, d);
    if dow != d {
      assert dow in r.config.workingDays <==> dow in s.config.workingDays;
      SameOpenDaysSamePanel(s.config, r.config, s.appointments, selected, date, dow);
    }
  }

  /** The panel reads the working days only through membership of `dow`. */
  lemma SameOpenDaysSamePanel(c1: Config, c2: Config, appts: seq<Appointment>, selected: Option<ServiceType>, date: Date, dow: int)
    requires c1.startTime == c2.startTime && c1.endTime == c2.endTime
    requires dow in c1.workingDays <==> dow in c2.workingDays
    ensures SlotMinutes(c1, appts, selected, date, dow) == SlotMinutes(c2, appts, selected, date, dow)
    ensures Panel(c1, appts, selected, date, dow) == Panel(c2, appts, selected, date, dow)
  {
  }

  /** The admin panel's add button: `addType`, and on success `onUpdateConfig`. */
  function AddTypeAction(s: AppState, id: Id, input: TypeInput): (r: AppState)
    ensures !ValidInput(input) ==> r == s
    ensures ValidInput(input) ==>
      r == s.(config := s.config.(appointmentTypes := s.config.appointmentTypes + [ServiceType(id, input.name.value, input.duration.value, input.price.value)]))
  {
    match AddType(s.config.appointmentTypes, id, input)
    case None => s
    case Some(types) => OnUpdateConfig(s, ConfigChanges(Some(types), None, None, None))
  }

  /** The admin panel's remove button: `removeType` fed into `onUpdateConfig`. */
  function RemoveTypeAction(s: AppState, id: Id): AppState
  {
    OnUpdateConfig(s, ConfigChanges(Some(RemoveType(s.config.appointmentTypes, id)), None, None, None))
  }

  /** For a given service type, removing a catalogue entry changes neither
      the appointments nor the times offered for that type: bookings keep
      their own duration, and the slot computation never reads the
      catalogue. */
  lemma RemovingTypeKeepsBookings(s: AppState, id: Id, selected: Option<ServiceType>, date: Date, dow: int)
    ensures var r := RemoveTypeAction(s, id);
      && r.appointments == s.appointments
      && SlotMinutes(r.config, r.appointments, selected, date, dow) == SlotMinutes(s.config, s.appointments, selected, date, dow)
  {
  }

  /** The widget re-derives its type with `find` on every render: once the
      selected type is removed from the catalogue no type is selected, and
      nothing is offered on any date. */
  lemma RemovingSelectedTypeEmptiesSlots(s: AppState, id: Id, date: Date, dow: int)
    ensures var r := RemoveTypeAction(s, id);
      && FindType(r.config.appointmentTypes, id).None?
      && SlotMinutes(r.config, r.appointments, FindType(r.config.appointmentTypes, id), date, dow) == []
  {
  }

  /** The widget's confirm button: `handleBook`, and when it produces a
      record, `onBook`. */
  function BookAction(s: AppState, selected: Option<ServiceType>, selectedTime: string, id: Id, date: Date): (r: AppState)
    ensures selected.None? || selectedTime == "" ==> r == s
  {
    match HandleBook(selected, selectedTime, id, date)
    case None => s
    case Some(appt) => OnBook(s, appt)
  }

  /** Booking an offered time takes exactly its interval: afterwards, for
      any service type, a time stays offered on that date exactly when it
      was offered before and does not overlap the new booking. */
  lemma BookingTakesItsInterval(s: AppState, selected: Option<ServiceType>, t: nat, id: Id, date: Date,
                                query: Option<ServiceType>, dow: int, x: int)
    requires selected.Some?
    ensures var r := BookAction(s, selected, FormatTime(t), id, date);
      x in SlotMinutes(r.config, r.appointments, query, date, dow)
      <==> (&& x in SlotMinutes(s.config, s.appointments, query, date, dow)
            && (query.Some? ==> !Overlaps(x, x + query.value.duration, t, t + selected.value.duration)))
  {
    FormatTimeNonEmpty(t);
    var appt := BookedAppointment(s, selected, FormatTime(t), id, date);
    BlockOfFormatted(appt, t);
    SlotsAfterAppend(s.config, s.appointments, appt, query, date, dow, x);
  }

  /** Confirming a selected type and a non-empty time appends one
      appointment with that date and time and nothing else. */
  lemma BookedAppointment(s: AppState, selected: Option<ServiceType>, time: string, id: Id, date: Date)
    returns (appt: Appointment)
    requires selected.Some? && time != ""
    ensures BookAction(s, selected, time, id, date) == AppState(s.config, s.appointments + [appt])
    ensures appt.date == date && appt.time == time && appt.duration == selected.value.duration
  {
    appt := HandleBook(selected, time, id, date).value;
  }

  lemma BlockOfFormatted(a: Appointment, t: nat)
    requires a.time == FormatTime(t)
    ensures BlockOf(a) == Span(t, t + a.duration)
  {
    FormatThenParse(t);
    BlockOfParsed(a, t);
  }

  /** Cancelling never takes a slot away. */
  lemma CancellationKeepsSlots(s: AppState, id: Id, selected: Option<ServiceType>, date: Date, dow: int, t: int)
    requires t in SlotMinutes(s.config, s.appointments, selected, date, dow)
    ensures var r := OnRemove(s, id);
      t in SlotMinutes(r.config, r.appointments, selected, date, dow)
  {
    var r := OnRemove(s, id);
    SlotsOfFewer(s.config, s.appointments, r.appointments, selected, date, dow, t);
  }

  /** A grid point in the opening window whose only conflicting
      appointments on that date carry the cancelled id is offered again
      once they are cancelled. */
  lemma CancellationFreesSlot(s: AppState, id: Id, selected: Option<ServiceType>, date: Date, dow: int, t: int)
    requires selected.Some? && dow in s.config.workingDays
    requires ParseTime(s.config.startTime).Some? && ParseTime(s.config.endTime).Some?
    requires var start := ParseTime(s.config.startTime).value;
      start <= t && t + selected.value.duration <= ParseTime(s.config.endTime).value && (t - start) % Grid == 0
    requires forall a :: a in s.appointments && IsSameDate(a.date, date) && Conflicts(t, t + selected.value.duration, BlockOf(a)) ==> a.id == id
    ensures var r := OnRemove(s, id);
      t in SlotMinutes(r.config, r.appointments, selected, date, dow)
  {
    var r := OnRemove(s, id);
    RemovalFrees(s, id, t, selected.value.duration, date);
    assert Bookable(s.config, r.appointments, selected, date, dow, t);
    SlotsComplete(s.config, r.appointments, selected, date, dow, t);
  }

  /** Once every appointment that conflicts with `[t, t + d)` on `date` is
      cancelled, the interval is free. */
  lemma RemovalFrees(s: AppState, id: Id, t: int, d: int, date: Date)
    requires forall a :: a in s.appointments && IsSameDate(a.date, date) && Conflicts(t, t + d, BlockOf(a)) ==> a.id == id
    ensures FreeOn(t, d, OnRemove(s, id).appointments, date)
  {
  }

  /** With the initial configuration, a 30-minute service on a Monday with
      no appointments is offered from 09:00 to 17:30, every half hour. */
  lemma InitialMondaySlots(cutId: Id, fadeId: Id, beardId: Id, date: Date)
    ensures var s := InitialState(cutId, fadeId, beardId);
      var slots := AvailableSlots(s.config, s.appointments, Some(s.config.appointmentTypes[0]), date, 1);
      && |slots| == 18
      && slots[0] == "09:00"
      && slots[|slots| - 1] == "17:30"
  {
    var s := InitialState(cutId, fadeId, beardId);
    InitialConfigWellFormed(cutId, fadeId, beardId);
    NineToSixEmptyDay(s.config, Some(s.config.appointmentTypes[0]), date, 1);
  }

  /** The same for any configuration open 09:00 to 18:00 on that weekday. */
  lemma NineToSixEmptyDay(cfg: Config, selected: Option<ServiceType>, date: Date, dow: int)
    requires ParseTime(cfg.startTime) == Some(540) && ParseTime(cfg.endTime) == Some(1080)
    requires dow in cfg.workingDays && selected.Some? && selected.value.duration == 30
    ensures var slots := AvailableSlots(cfg, [], selected, date, dow);
      && |slots| == 18
      && slots[0] == "09:00"
      && slots[|slots| - 1] == "17:30"
  {
    UnblockedDaySlots(cfg, [], selected, date, dow);
    var ms := SlotMinutes(cfg, [], selected, date, dow);
    assert |ms| == 18 && ms[0] == 540 && ms[17] == 1050;
    FormatClock(ms[0], "09:00");
    FormatClock(ms[17], "17:30");
  }

  /** With the initial configuration and a 45-minute appointment at 09:00
      on a Monday, the first 30-minute slot offered that day is 10:00: the
      grid points 09:00 and 09:30 overlap the booking. */
  lemma FirstSlotAfterMorningBooking(cutId: Id, fadeId: Id, beardId: Id, date: Date, appt: Appointment)
    requires appt.date == date && appt.time == "09:00" && appt.duration == 45
    ensures var s := OnBook(InitialState(cutId, fadeId, beardId), appt);
      var slots := AvailableSlots(s.config, s.appointments, Some(s.config.appointmentTypes[0]), date, 1);
      |slots| > 0 && slots[0] == "10:00"
  {
    var s := OnBook(InitialState(cutId, fadeId, beardId), appt);
    InitialConfigWellFormed(cutId, fadeId, beardId);
    ParseNine();
    NineToSixAfterMorningBooking(s.config, appt, Some(s.config.appointmentTypes[0]), date, 1);
  }

  /** The same for any configuration open 09:00 to 18:00 on that weekday. */
  lemma NineToSixAfterMorningBooking(cfg: Config, appt: Appointment, selected: Option<ServiceType>, date: Date, dow: int)
    requires ParseTime(cfg.startTime) == Some(540) && ParseTime(cfg.endTime) == Some(1080)
    requires dow in cfg.workingDays && selected.Some? && selected.value.duration == 30
    requires appt.date == date && ParseTime(appt.time) == Some(540) && appt.duration == 45
    ensures var slots := AvailableSlots(cfg, [appt], selected, date, dow);
      |slots| > 0 && slots[0] == "10:00"
  {
    FirstFreeMinuteAfterMorningBooking(cfg, appt, selected, date, dow);
    var ms := SlotMinutes(cfg, [appt], selected, date, dow);
    FormatClock(ms[0], "10:00");
  }

  /** Formatting a minute count whose digits are those of `s` gives `s`. */
  lemma FormatClock(m: nat, s: string)
    requires |s| == 5 && s[2] == ':'
    requires IsDigit(s[0]) && IsDigit(s[1]) && IsDigit(s[3]) && IsDigit(s[4]) && DigitValue(s[3]) < 6
    requires m == DigitValue(s[0]) * 600 + DigitValue(s[1]) * 60 + DigitValue(s[3]) * 10 + DigitValue(s[4])
    ensures FormatTime(m) == s
  {
    CanonicalFromChars(s);
    FormatOfCanonical(m, s);
  }

  lemma FirstFreeMinuteAfterMorningBooking(cfg: Config, appt: Appointment, selected: Option<ServiceType>, date: Date, dow: int)
    requires ParseTime(cfg.startTime) == Some(540) && ParseTime(cfg.endTime) == Some(1080)
    requires dow in cfg.workingDays && selected.Some? && selected.value.duration == 30
    requires appt.date == date && ParseTime(appt.time) == Some(540) && appt.duration == 45
    ensures var ms := SlotMinutes(cfg, [appt], selected, date, dow);
      |ms| > 0 && ms[0] == 600
  {
    var ms := SlotMinutes(cfg, [appt], selected, date, dow);
    MorningBookable(cfg, appt, selected, date, dow, 600);
    SlotsComplete(cfg, [appt], selected, date, dow, 600);
    SlotMinutesIncreasing(cfg, [appt], selected, date, dow);
    assert ms[0] <= 600 by { assert 600 in ms; }
    SlotsComplete(cfg, [appt], selected, date, dow, ms[0]);
    MorningBookable(cfg, appt, selected, date, dow, ms[0]);
  }

  /** With a 45-minute appointment at 09:00 on a 09:00-18:00 day, a
      30-minute service can start on the half-hour grid from 10:00 on. */
  lemma MorningBookable(cfg: Config, appt: Appointment, selected: Option<ServiceType>, date: Date, dow: int, x: int)
    requires ParseTime(cfg.startTime) == Some(540) && ParseTime(cfg.endTime) == Some(1080)
    requires dow in cfg.workingDays && selected.Some? && selected.value.duration == 30
    requires appt.date == date && ParseTime(appt.time) == Some(540) && appt.duration == 45
    ensures Bookable(cfg, [appt], selected, date, dow, x) <==> 600 <= x <= 1050 && (x - 540) % Grid == 0
  {
    BlockOfParsed(appt, 540);
    assert FreeOn(x, 30, [appt], date) <==> !Overlaps(x, x + 30, 540, 585) by {
      assert forall a :: a in [appt] <==> a == appt;
    }
    assert (x - 540) % Grid == 0 && 585 <= x ==> 600 <= x by {
      if (x - 540) % Grid == 0 && 585 <= x {
        assert x - 540 == (x - 540) / 30 * 30;
      }
    }
  }

  /** Booking is not re-checked: a time that is no longer offered (a stale
      selection) is still booked, so two appointments occupy 09:00-09:30.
      The second `BookAction` stands for a user who picked 09:00 and then
      changed the date or the service: `selectedTime` survives both
      changes, while a completed booking clears it. */
  lemma StaleSelectionDoubleBooks(cutId: Id, fadeId: Id, beardId: Id, date: Date, id1: Id, id2: Id)
    ensures var s0 := InitialState(cutId, fadeId, beardId);
      var cut := Some(s0.config.appointmentTypes[0]);
      var s1 := BookAction(s0, cut, "09:00", id1, date);
      var s2 := BookAction(s1, cut, "09:00", id2, date);
      && 540 !in SlotMinutes(s1.config, s1.appointments, cut, date, 1)
      && |s2.appointments| == 2
      && BlockOf(s2.appointments[0]) == Span(540, 570)
      && BlockOf(s2.appointments[1]) == Span(540, 570)
  {
    var s0 := InitialState(cutId, fadeId, beardId);
    var cut := Some(s0.config.appointmentTypes[0]);
    var s1 := BookAction(s0, cut, "09:00", id1, date);
    ParseNine();
    assert s1.appointments[0] in s1.appointments;
    SlotsComplete(s1.config, s1.appointments, cut, date, 1, 540);
  }
}

=== FILE: booking_widget.dfy ===
/** The availability engine of BookingWidget.jsx: the blocked intervals of a
    day, the candidate walk that produces the offered start times, the
    closed / no-slots / slots panel, and the record `handleBook` passes on. */
module BookingWidget {
  import opened Wrappers
  import opened Seqs
  import opened TimeOfDay
  import opened Schedule

  /** Step of the candidate walk, in minutes. */
  const Step: nat := 15
  /** Slots are offered only on this grid, measured from the opening time. */
  const Grid: nat := 30

  /** The interval an existing appointment occupies. An appointment whose
      time does not parse starts at `NaN`; every comparison with `NaN` is
      false, so such a block conflicts with every candidate. */
  datatype Block = Span(lo: int, hi: int) | Unreadable

  function BlockOf(a: Appointment): Block
  {
    match ParseTime(a.time)
    case Some(s) => Span(s, s + a.duration)
    case None => Unreadable
  }

  lemma BlockOfParsed(a: Appointment, m: nat)
    requires ParseTime(a.time) == Some(m)
    ensures BlockOf(a) == Span(m, m + a.duration)
  {
  }

  /** `availableSlots`'s test `!(e <= bs || s >= be)` for the candidate `[s, e)`
      against the block `[bs, be)`. It is the usual half-open overlap test. */
  function Overlaps(s: int, e: int, bs: int, be: int): (r: bool)
    ensures r <==> s < be && bs < e
  {
    !(e <= bs || s >= be)
  }

  /** Overlap is symmetric, and intervals that merely touch do not overlap. */
  lemma OverlapsSymmetric(s: int, e: int, bs: int, be: int)
    ensures Overlaps(s, e, bs, be) == Overlaps(bs, be, s, e)
    ensures e == bs ==> !Overlaps(s, e, bs, be)
    ensures be == s ==> !Overlaps(s, e, bs, be)
  {
  }

  predicate Conflicts(s: int, e: int, b: Block)
  {
    match b
    case Span(bs, be) => Overlaps(s, e, bs, be)
    case Unreadable => true
  }

  /** The blocked intervals of the appointments on `date`, in list order
      (the `filter` by `isSameDate` followed by `map`). */
  function BlocksOn(appts: seq<Appointment>, date: Date): seq<Block>
  {
    if appts == [] then []
    else
      (if IsSameDate(appts[0].date, date) then [BlockOf(appts[0])] else [])
      + BlocksOn(appts[1..], date)
  }

  /** The blocks are exactly those of the appointments on `date`. */
  lemma {:induction false} BlocksOnMembers(appts: seq<Appointment>, date: Date)
    ensures forall b :: b in BlocksOn(appts, date) <==> exists a :: a in appts && IsSameDate(a.date, date) && BlockOf(a) == b
  {
    if appts != [] {
      BlocksOnMembers(appts[1..], date);
      assert appts == [appts[0]] + appts[1..];
    }
  }

  /** `blocks.some(...)`: the candidate `[s, e)` conflicts with some block. */
  function AnyConflict(s: int, e: int, blocks: seq<Block>): bool
  {
    if blocks == [] then false
    else Conflicts(s, e, blocks[0]) || AnyConflict(s, e, blocks[1..])
  }

  /** `some` holds exactly when one of the blocks conflicts. */
  lemma {:induction false} AnyConflictExists(s: int, e: int, blocks: seq<Block>)
    ensures AnyConflict(s, e, blocks) <==> exists b :: b in blocks && Conflicts(s, e, b)
  {
    if blocks != [] {
      AnyConflictExists(s, e, blocks[1..]);
      assert blocks == [blocks[0]] + blocks[1..];
    }
  }

  /** The candidate `[t, t + d)` conflicts with no appointment on `date`. */
  predicate FreeOn(t: int, d: int, appts: seq<Appointment>, date: Date)
  {
    forall a :: a in appts && IsSameDate(a.date, date) ==> !Conflicts(t, t + d, BlockOf(a))
  }

  /** One more appointment on the date frees nothing and takes exactly
      what it conflicts with. */
  lemma FreeOnAppend(t: int, d: int, appts: seq<Appointment>, a: Appointment, date: Date)
    ensures FreeOn(t, d, appts + [a], date)
      <==> FreeOn(t, d, appts, date) && (IsSameDate(a.date, date) ==> !Conflicts(t, t + d, BlockOf(a)))
  {
    assert a in appts + [a];
    assert forall b :: b in appts + [a] <==> b in appts || b == a;
  }

  lemma NoConflictIsFree(t: int, d: int, appts: seq<Appointment>, date: Date)
    ensures !AnyConflict(t, t + d, BlocksOn(appts, date)) <==> FreeOn(t, d, appts, date)
  {
    var blocks := BlocksOn(appts, date);
    BlocksOnMembers(appts, date);
    AnyConflictExists(t, t + d, blocks);
    if FreeOn(t, d, appts, date) {
      forall b | b in blocks
        ensures !Conflicts(t, t + d, b)
      {
        var a :| a in appts && IsSameDate(a.date, date) && BlockOf(a) == b;
      }
    }
  }

  /** The `for` loop of the slot computation from candidate `t` on: while
      `t + d <= end`, emit `t` when it conflicts with no block and lies on the
      30-minute grid from `start`, then move on by 15 minutes. Every candidate
      is at least `start`, so JavaScript's `%` and Dafny's agree here. */
  function Walk(t: nat, start: nat, end: nat, d: int, blocks: seq<Block>): (r: seq<nat>)
    requires start <= t
    ensures forall i :: 0 <= i < |r| ==>
      && t <= r[i] && r[i] + d <= end
      && (r[i] - start) % Grid == 0
      && !AnyConflict(r[i], r[i] + d, blocks)
    decreases end - d - t + Step
  {
    if t + d > end then []
    else
      var rest := Walk(t + Step, start, end, d, blocks);
      if !AnyConflict(t, t + d, blocks) && (t - start) % Grid == 0 then [t] + rest else rest
  }

  /** Membership form of the walk's contract. */
  lemma WalkSound(t: nat, start: nat, end: nat, d: int, blocks: seq<Block>, x: int)
    requires start <= t && x in Walk(t, start, end, d, blocks)
    ensures t <= x && x + d <= end && (x - start) % Grid == 0 && !AnyConflict(x, x + d, blocks)
  {
    var r := Walk(t, start, end, d, blocks);
    var i :| 0 <= i < |r| && r[i] == x;
  }

  /** The candidates are visited in increasing order, so the offered times
      are sorted and distinct. */
  lemma {:induction false} WalkIncreasing(t: nat, start: nat, end: nat, d: int, blocks: seq<Block>)
    requires start <= t
    ensures StrictlyIncreasing(Walk(t, start, end, d, blocks))
    decreases end - d - t + Step
  {
    if t + d <= end {
      var rest := Walk(t + Step, start, end, d, blocks);
      WalkIncreasing(t + Step, start, end, d, blocks);
      assert forall y :: y in rest ==> t < y;
      ConsIncreasing(t, rest);
    }
  }

  /** Everything the walk can reach is emitted: a candidate on the
      15-minute lattice from `t` that is on the grid, fits before `end` and
      conflicts with no block. */
  lemma {:induction false} WalkComplete(t: nat, start: nat, end: nat, d: int, blocks: seq<Block>, x: int)
    requires start <= t && (t - start) % Step == 0
    requires t <= x && x + d <= end && (x - start) % Grid == 0
    requires !AnyConflict(x, x + d, blocks)
    ensures x in Walk(t, start, end, d, blocks)
    decreases end - d - t + Step
  {
    var rest := Walk(t + Step, start, end, d, blocks);
    var here := if !AnyConflict(t, t + d, blocks) && (t - start) % Grid == 0 then [t] else [];
    assert Walk(t, start, end, d, blocks) == here + rest;
    if x != t {
      NextCandidate(t - start, x - start);
      WalkComplete(t + Step, start, end, d, blocks, x);
      assert x in rest;
    } else {
      assert here == [t];
    }
  }

  /** A grid point beyond a candidate is at least one step further on. */
  lemma NextCandidate(u: int, v: int)
    requires 0 <= u < v && u % Step == 0 && v % Grid == 0
    ensures u + Step <= v && (u + Step) % Step == 0
  {
    assert Grid == 30 && Step == 15;
    var a, b := v / 30, u / 15;
    assert v == 30 * a && u == 15 * b;
    assert b + 1 <= 2 * a;
    assert u + Step == 15 * (b + 1);
  }

  /** The same walk stepping by 30 from a grid point, with no grid filter:
      a half-hour enumeration of the window to compare `Walk` against. */
  function GridWalk(t: nat, end: nat, d: int, blocks: seq<Block>): seq<nat>
    decreases end - d - t + Grid
  {
    if t + d > end then []
    else (if AnyConflict(t, t + d, blocks) then [] else [t]) + GridWalk(t + Grid, end, d, blocks)
  }

  /** Stepping by 15 and keeping the grid points gives the same list as
      stepping by 30. */
  lemma {:induction false} WalkMatchesGrid(t: nat, start: nat, end: nat, d: int, blocks: seq<Block>)
    requires start <= t && (t - start) % Grid == 0
    ensures Walk(t, start, end, d, blocks) == GridWalk(t, end, d, blocks)
    decreases end - d - t + Grid
  {
    if t + d <= end {
      var here := if !AnyConflict(t, t + d, blocks) then [t] else [];
      OffGrid(t - start);
      var skipped := Walk(t + Step, start, end, d, blocks);
      var next := Walk(t + Grid, start, end, d, blocks);
      assert skipped == next by {
        if t + Step + d <= end {
          assert t + Step + Step == t + Grid;
        }
      }
      assert Walk(t, start, end, d, blocks) == here + skipped;
      WalkMatchesGrid(t + Grid, start, end, d, blocks);
      assert GridWalk(t, end, d, blocks) == here + GridWalk(t + Grid, end, d, blocks);
    }
  }

  /** The candidate half a grid cell after a grid point is off the grid,
      and the next one is back on it. */
  lemma OffGrid(u: int)
    requires u >= 0 && u % Grid == 0
    ensures (u + Step) % Grid != 0 && (u + Grid) % Grid == 0
  {
    assert Grid == 30 && Step == 15;
    assert u == 30 * (u / 30);
  }

  /** With no blocks, the grid walk from `t` offers exactly the grid points
      from `t` up to the last one at which the service still fits. */
  lemma {:induction false} GridWalkUnblocked(t: nat, end: nat, d: int)
    requires t + d <= end
    ensures var r := GridWalk(t, end, d, []);
      && |r| == (end - d - t) / Grid + 1
      && forall i :: 0 <= i < |r| ==> r[i] == t + Grid * i
    decreases end - d - t
  {
    var r := GridWalk(t, end, d, []);
    if t + Grid + d <= end {
      GridWalkUnblocked(t + Grid, end, d);
      var rest := GridWalk(t + Grid, end, d, []);
      assert r == [t] + rest;
      assert (end - d - t) / Grid == (end - d - (t + Grid)) / Grid + 1;
      forall i | 0 < i < |r|
        ensures r[i] == t + Grid * i
      {
        assert r[i] == rest[i - 1];
      }
    } else {
      assert GridWalk(t + Grid, end, d, []) == [];
      assert (end - d - t) / Grid == 0;
    }
  }

  /** The start times the widget offers, as minutes of the day, for the
      selected service type on `date`, whose weekday is `dow`. */
  function SlotMinutes(cfg: Config, appts: seq<Appointment>, selected: Option<ServiceType>, date: Date, dow: int): (r: seq<nat>)
    ensures selected.None? || dow !in cfg.workingDays ==> r == []
  {
    if selected.None? then []
    else if dow !in cfg.workingDays then []
    else
      match (ParseTime(cfg.startTime), ParseTime(cfg.endTime))
      case (Some(start), Some(end)) =>
        Walk(start, start, end, selected.value.duration, BlocksOn(appts, date))
      case _ => []
  }

  /** The offered times are sorted and distinct. */
  lemma SlotMinutesIncreasing(cfg: Config, appts: seq<Appointment>, selected: Option<ServiceType>, date: Date, dow: int)
    ensures StrictlyIncreasing(SlotMinutes(cfg, appts, selected, date, dow))
  {
    if selected.Some? && dow in cfg.workingDays && ParseTime(cfg.startTime).Some? && ParseTime(cfg.endTime).Some? {
      var start := ParseTime(cfg.startTime).value;
      WalkIncreasing(start, start, ParseTime(cfg.endTime).value, selected.value.duration, BlocksOn(appts, date));
    }
  }

  /** The declarative meaning of a slot: a service type is selected, the
      weekday is open, both configured times parse, and `t` is a grid point
      from the opening time at which the service fits before closing and
      overlaps no appointment on that date. */
  predicate Bookable(cfg: Config, appts: seq<Appointment>, selected: Option<ServiceType>, date: Date, dow: int, t: int)
  {
    && selected.Some?
    && dow in cfg.workingDays
    && ParseTime(cfg.startTime).Some?
    && ParseTime(cfg.endTime).Some?
    && var start := ParseTime(cfg.startTime).value;
       var end := ParseTime(cfg.endTime).value;
       var d := selected.value.duration;
       && start <= t && t + d <= end
       && (t - start) % Grid == 0
       && FreeOn(t, d, appts, date)
  }

  /** Completeness of the slot list: every bookable time is offered. With
      the ensures of `SlotMinutes` this makes the list exactly the bookable
      times, in increasing order. */
  lemma SlotsComplete(cfg: Config, appts: seq<Appointment>, selected: Option<ServiceType>, date: Date, dow: int, t: int)
    ensures t in SlotMinutes(cfg, appts, selected, date, dow) <==> Bookable(cfg, appts, selected, date, dow, t)
  {
    if t in SlotMinutes(cfg, appts, selected, date, dow) {
      OfferedIsBookable(cfg, appts, selected, date, dow, t);
    }
    if Bookable(cfg, appts, selected, date, dow, t) {
      BookableIsOffered(cfg, appts, selected, date, dow, t);
    }
  }

  lemma OfferedIsBookable(cfg: Config, appts: seq<Appointment>, selected: Option<ServiceType>, date: Date, dow: int, t: int)
    requires t in SlotMinutes(cfg, appts, selected, date, dow)
    ensures Bookable(cfg, appts, selected, date, dow, t)
  {
    var r := SlotMinutes(cfg, appts, selected, date, dow);
    assert selected.Some? && dow in cfg.workingDays;
    var ps, pe := ParseTime(cfg.startTime), ParseTime(cfg.endTime);
    assert ps.Some? && pe.Some?;
    var start, end, d := ps.value, pe.value, selected.value.duration;
    var blocks := BlocksOn(appts, date);
    assert r == Walk(start, start, end, d, blocks);
    WalkSound(start, start, end, d, blocks, t);
    NoConflictIsFree(t, d, appts, date);
    assert start <= t && t + d <= end && (t - start) % Grid == 0 && FreeOn(t, d, appts, date);
  }

  lemma BookableIsOffered(cfg: Config, appts: seq<Appointment>, selected: Option<ServiceType>, date: Date, dow: int, t: int)
    requires Bookable(cfg, appts, selected, date, dow, t)
    ensures t in SlotMinutes(cfg, appts, selected, date, dow)
  {
    var start := ParseTime(cfg.startTime).value;
    var end := ParseTime(cfg.endTime).value;
    var d := selected.value.duration;
    NoConflictIsFree(t, d, appts, date);
    WalkComplete(start, start, end, d, BlocksOn(appts, date), t);
  }

  /** Fewer appointments never take a slot away. */
  lemma SlotsOfFewer(cfg: Config, appts: seq<Appointment>, fewer: seq<Appointment>, selected: Option<ServiceType>,
                     date: Date, dow: int, t: int)
    requires forall a :: a in fewer ==> a in appts
    requires t in SlotMinutes(cfg, appts, selected, date, dow)
    ensures t in SlotMinutes(cfg, fewer, selected, date, dow)
  {
    SlotsComplete(cfg, appts, selected, date, dow, t);
    SlotsComplete(cfg, fewer, selected, date, dow, t);
  }

  /** One more appointment on the date removes exactly the grid points
      whose interval it overlaps; on other dates it removes nothing. */
  lemma SlotsAfterAppend(cfg: Config, appts: seq<Appointment>, a: Appointment, selected: Option<ServiceType>,
                         date: Date, dow: int, t: int)
    ensures t in SlotMinutes(cfg, appts + [a], selected, date, dow)
      <==> (&& t in SlotMinutes(cfg, appts, selected, date, dow)
            && (selected.Some? && IsSameDate(a.date, date) ==> !Conflicts(t, t + selected.value.duration, BlockOf(a))))
  {
    SlotsComplete(cfg, appts + [a], selected, date, dow, t);
    SlotsComplete(cfg, appts, selected, date, dow, t);
    if selected.Some? {
      FreeOnAppend(t, selected.value.duration, appts, a, date);
    }
  }

  /** A service longer than the opening window yields no slots: nothing is
      clipped to fit. */
  lemma NoRoomNoSlots(cfg: Config, appts: seq<Appointment>, selected: Option<ServiceType>, date: Date, dow: int)
    requires selected.Some? && ParseTime(cfg.startTime).Some? && ParseTime(cfg.endTime).Some?
    requires ParseTime(cfg.startTime).value + selected.value.duration > ParseTime(cfg.endTime).value
    ensures SlotMinutes(cfg, appts, selected, date, dow) == []
  {
  }

  /** On a working day with no appointments on that date, every grid point
      from the opening time up to the last start at which the service fits
      is offered, and nothing else. */
  lemma UnblockedDaySlots(cfg: Config, appts: seq<Appointment>, selected: Option<ServiceType>, date: Date, dow: int)
    requires selected.Some? && dow in cfg.workingDays
    requires ParseTime(cfg.startTime).Some? && ParseTime(cfg.endTime).Some?
    requires forall a :: a in appts ==> !IsSameDate(a.date, date)
    requires ParseTime(cfg.startTime).value + selected.value.duration <= ParseTime(cfg.endTime).value
    ensures var start := ParseTime(cfg.startTime).value;
      var end := ParseTime(cfg.endTime).value;
      var r := SlotMinutes(cfg, appts, selected, date, dow);
      && |r| == (end - selected.value.duration - start) / Grid + 1
      && forall i :: 0 <= i < |r| ==> r[i] == start + Grid * i
  {
    var start := ParseTime(cfg.startTime).value;
    var end := ParseTime(cfg.endTime).value;
    var d := selected.value.duration;
    var blocks := BlocksOn(appts, date);
    NoAppointmentsNoBlocks(appts, date);
    WalkMatchesGrid(start, start, end, d, []);
    GridWalkUnblocked(start, end, d);
  }

  lemma {:induction false} NoAppointmentsNoBlocks(appts: seq<Appointment>, date: Date)
    requires forall a :: a in appts ==> !IsSameDate(a.date, date)
    ensures BlocksOn(appts, date) == []
  {
    if appts != [] {
      assert appts[0] in appts;
      NoAppointmentsNoBlocks(appts[1..], date);
    }
  }

  /** Only the appointments on `date` matter: dropping every appointment on
      another date leaves the blocked intervals unchanged. */
  lemma {:induction false} OtherDatesNeverBlock(appts: seq<Appointment>, date: Date)
    ensures BlocksOn(RemoveWhere(appts, (a: Appointment) => !IsSameDate(a.date, date)), date) == BlocksOn(appts, date)
  {
    if appts != [] {
      OtherDatesNeverBlock(appts[1..], date);
      var drop := (a: Appointment) => !IsSameDate(a.date, date);
      var rest := RemoveWhere(appts[1..], drop);
      if drop(appts[0]) {
        assert RemoveWhere(appts, drop) == rest;
      } else {
        assert RemoveWhere(appts, drop) == [appts[0]] + rest;
        assert ([appts[0]] + rest)[1..] == rest;
      }
    }
  }

  /** `availableSlots`: the offered start times rendered as `HH:MM`; each
      string parses back to the minute it was made from. */
  function AvailableSlots(cfg: Config, appts: seq<Appointment>, selected: Option<ServiceType>, date: Date, dow: int): (r: seq<string>)
    ensures var ms := SlotMinutes(cfg, appts, selected, date, dow);
      |r| == |ms| && forall i :: 0 <= i < |r| ==> ParseTime(r[i]) == Some(ms[i])
  {
    var ms := SlotMinutes(cfg, appts, selected, date, dow);
    FormatAllThenParse(ms);
    seq(|ms|, i requires 0 <= i < |ms| => FormatTime(ms[i]))
  }

  lemma FormatAllThenParse(ms: seq<nat>)
    ensures forall i :: 0 <= i < |ms| ==> ParseTime(FormatTime(ms[i])) == Some(ms[i])
  {
    forall i | 0 <= i < |ms|
      ensures ParseTime(FormatTime(ms[i])) == Some(ms[i])
    {
      FormatThenParse(ms[i]);
    }
  }

  /** `dayOpen`: the weekday is one of the working days. */
  predicate DayOpen(cfg: Config, dow: int)
  {
    dow in cfg.workingDays
  }

  /** What the "Available Times" area shows. */
  datatype SlotPanel = ClosedNotice | NoSlotsNotice | SlotButtons(times: seq<string>)

  /** The rendering choice: the closed notice exactly when the weekday is
      not a working day; otherwise the no-slots notice exactly when no time
      is bookable; otherwise one button per offered time. */
  function Panel(cfg: Config, appts: seq<Appointment>, selected: Option<ServiceType>, date: Date, dow: int): (r: SlotPanel)
    ensures r.ClosedNotice? <==> dow !in cfg.workingDays
    ensures r.NoSlotsNotice? <==> dow in cfg.workingDays && forall t :: !Bookable(cfg, appts, selected, date, dow, t)
    ensures r.SlotButtons? ==> r.times == AvailableSlots(cfg, appts, selected, date, dow) && |r.times| > 0
  {
    var times := AvailableSlots(cfg, appts, selected, date, dow);
    NothingOfferedMeansNothingBookable(cfg, appts, selected, date, dow);
    if !DayOpen(cfg, dow) then ClosedNotice
    else if |times| == 0 then NoSlotsNotice
    else SlotButtons(times)
  }

  lemma NothingOfferedMeansNothingBookable(cfg: Config, appts: seq<Appointment>, selected: Option<ServiceType>, date: Date, dow: int)
    ensures SlotMinutes(cfg, appts, selected, date, dow) == [] <==> forall t :: !Bookable(cfg, appts, selected, date, dow, t)
  {
    var r := SlotMinutes(cfg, appts, selected, date, dow);
    forall t
      ensures t in r <==> Bookable(cfg, appts, selected, date, dow, t)
    {
      SlotsComplete(cfg, appts, selected, date, dow, t);
    }
    if r != [] {
      assert r[0] in r;
    }
  }

  /** `appointmentTypes.find(...)`: the first service type with the id. */
  function FindType(types: seq<ServiceType>, id: Id): (r: Option<ServiceType>)
    ensures r.None? <==> forall t :: t in types ==> t.id != id
    ensures r.Some? ==> r.value.id == id && exists i :: (0 <= i < |types| && types[i] == r.value
      && forall j :: 0 <= j < i ==> types[j].id != id)
  {
    if types == [] then None
    else if types[0].id == id then Some(types[0])
    else
      var r := FindType(types[1..], id);
      if r.Some? then
        var i :| 0 <= i < |types[1..]| && types[1..][i] == r.value && r.value.id == id
          && forall j :: 0 <= j < i ==> types[1..][j].id != id;
        assert types[i + 1] == r.value;
        r
      else r
  }

  /** `handleBook`: nothing happens without a selected type and time;
      otherwise the new appointment snapshots the type's id, name, duration
      and price, with the chosen date and time and a fresh id. No check
      against existing appointments is made. */
  function HandleBook(selected: Option<ServiceType>, selectedTime: string, id: Id, date: Date): (r: Option<Appointment>)
    ensures r.None? <==> selected.None? || selectedTime == ""
    ensures r.Some? ==>
      && r.value.id == id
      && r.value.typeId == selected.value.id
      && r.value.typeName == selected.value.name
      && r.value.duration == selected.value.duration
      && r.value.price == selected.value.price
      && r.value.date == date
      && r.value.time == selectedTime
  {
    if selected.None? || selectedTime == "" then None
    else
      var t := selected.value;
      Some(Appointment(id, t.id, t.name, t.duration, t.price, date, selectedTime))
  }
}

=== FILE: schedule.dfy ===
/** The records the booking application passes between its components
    (the shapes listed in the PropTypes of BookingWidget.jsx and AdminPanel.jsx,
    and the state held in App.jsx). */
module Schedule {
  import opened Wrappers

  /** Identifiers are opaque strings supplied by the caller (the application
      draws them from `crypto.randomUUID`). */
  type Id = string

  /** A calendar day with no time component. Its weekday is not derived
      from it: callers pass the weekday alongside. */
  datatype Date = Date(year: int, month: int, day: int)

  /** An entry of the service catalogue. `price` is a decimal amount. */
  datatype ServiceType = ServiceType(id: Id, name: string, duration: int, price: real)

  /** A booking. `duration` and `price` are copied from the service type at
      booking time; `time` is the chosen `HH:MM` string. */
  datatype Appointment = Appointment(
    id: Id,
    typeId: Id,
    typeName: string,
    duration: int,
    price: real,
    date: Date,
    time: string)

  /** The administrator-editable configuration: the catalogue, the open
      weekdays (0 = Sunday) and the opening and closing times as `HH:MM`. */
  datatype Config = Config(
    appointmentTypes: seq<ServiceType>,
    workingDays: seq<int>,
    startTime: string,
    endTime: string)

  /** The argument of `onUpdateConfig`: each field is present (Some) or
      absent (None). */
  datatype ConfigChanges = ConfigChanges(
    appointmentTypes: Option<seq<ServiceType>>,
    workingDays: Option<seq<int>>,
    startTime: Option<string>,
    endTime: Option<string>)

  /** `isSameDate`: same year, month and day. */
  function IsSameDate(a: Date, b: Date): (r: bool)
    ensures r <==> a == b
  {
    a.year == b.year && a.month == b.month && a.day == b.day
  }
}

=== FILE: seqs.dfy ===
/** Sequence helpers shared by the configuration and state updates:
    order-preserving filtering (`Array.prototype.filter`) and the sorted,
    duplicate-free form of a set of integers (`Array.from(new Set(xs)).sort()`). */
module Seqs {

  /** The elements of `xs` for which `drop` is false, in their original order. */
  function RemoveWhere<T(!new)>(xs: seq<T>, drop: T -> bool): (r: seq<T>)
    ensures |r| <= |xs|
  {
    if xs == [] then []
    else (if drop(xs[0]) then [] else [xs[0]]) + RemoveWhere(xs[1..], drop)
  }

  /** The kept elements are exactly the elements of `xs` that are not dropped. */
  lemma {:induction false} RemoveWhereMembers<T(!new)>(xs: seq<T>, drop: T -> bool)
    ensures forall x :: x in RemoveWhere(xs, drop) <==> x in xs && !drop(x)
  {
    if xs != [] {
      RemoveWhereMembers(xs[1..], drop);
      assert xs == [xs[0]] + xs[1..];
    }
  }

  /** When nothing is dropped the sequence is returned unchanged. */
  lemma {:induction false} RemoveWhereNone<T(!new)>(xs: seq<T>, drop: T -> bool)
    requires forall x :: x in xs ==> !drop(x)
    ensures RemoveWhere(xs, drop) == xs
  {
    if xs != [] {
      assert xs[0] in xs;
      RemoveWhereNone(xs[1..], drop);
      assert xs == [xs[0]] + xs[1..];
    }
  }

  /** Filtering distributes over concatenation: the kept elements of `a`
      come first and in order, then those of `b`. */
  lemma {:induction false} RemoveWhereAppend<T(!new)>(a: seq<T>, b: seq<T>, drop: T -> bool)
    ensures RemoveWhere(a + b, drop) == RemoveWhere(a, drop) + RemoveWhere(b, drop)
  {
    if a == [] {
      assert a + b == b;
    } else {
      var head := if drop(a[0]) then [] else [a[0]];
      assert (a + b)[0] == a[0];
      assert (a + b)[1..] == a[1..] + b;
      assert RemoveWhere(a + b, drop) == head + RemoveWhere(a[1..] + b, drop);
      RemoveWhereAppend(a[1..], b, drop);
      assert RemoveWhere(a, drop) == head + RemoveWhere(a[1..], drop);
    }
  }

  /** Filtering twice by the same predicate is the same as filtering once. */
  lemma RemoveWhereIdempotent<T(!new)>(xs: seq<T>, drop: T -> bool)
    ensures RemoveWhere(RemoveWhere(xs, drop), drop) == RemoveWhere(xs, drop)
  {
    RemoveWhereMembers(xs, drop);
    RemoveWhereNone(RemoveWhere(xs, drop), drop);
  }

  /** Every pair of positions is in strictly increasing order, so there are
      no duplicates. */
  predicate StrictlyIncreasing(xs: seq<int>)
  {
    forall i, j :: 0 <= i < j < |xs| ==> xs[i] < xs[j]
  }

  /** Inserts `x` into a strictly increasing sequence, skipping it when it is
      already present. */
  function InsertDistinct(x: int, xs: seq<int>): (r: seq<int>)
    requires StrictlyIncreasing(xs)
    ensures StrictlyIncreasing(r)
    ensures forall y :: y in r <==> y == x || y in xs
  {
    if xs == [] then [x]
    else if x < xs[0] then
      assert forall y :: y in xs ==> x < y by { HeadIsLeast(xs); }
      ConsIncreasing(x, xs);
      [x] + xs
    else if x == xs[0] then xs
    else
      var tail := InsertDistinct(x, xs[1..]);
      assert forall y :: y in tail ==> xs[0] < y by { HeadIsLeast(xs); }
      ConsIncreasing(xs[0], tail);
      [xs[0]] + tail
  }

  lemma HeadIsLeast(xs: seq<int>)
    requires StrictlyIncreasing(xs) && xs != []
    ensures forall y :: y in xs[1..] ==> xs[0] < y
    ensures forall y :: y in xs ==> xs[0] <= y
    ensures StrictlyIncreasing(xs[1..])
  {
  }

  lemma ConsIncreasing(x: int, xs: seq<int>)
    requires StrictlyIncreasing(xs)
    requires forall y :: y in xs ==> x < y
    ensures StrictlyIncreasing([x] + xs)
  {
    var r := [x] + xs;
    forall i, j | 0 <= i < j < |r|
      ensures r[i] < r[j]
    {
      if i == 0 {
        assert r[j] == xs[j - 1];
        assert xs[j - 1] in xs;
      } else {
        assert r[i] == xs[i - 1] && r[j] == xs[j - 1];
      }
    }
  }

  /** The ascending, duplicate-free arrangement of the elements of `xs`. */
  function SortDistinct(xs: seq<int>): (r: seq<int>)
    ensures StrictlyIncreasing(r)
    ensures forall y :: y in r <==> y in xs
  {
    if xs == [] then []
    else InsertDistinct(xs[|xs| - 1], SortDistinct(xs[..|xs| - 1]))
  }

  /** A strictly increasing sequence is determined by its elements. This is
      why the order in which a JavaScript `Set` yields its elements does not
      matter once they are sorted. */
  lemma {:induction false} StrictlyIncreasingUnique(a: seq<int>, b: seq<int>)
    requires StrictlyIncreasing(a) && StrictlyIncreasing(b)
    requires forall y :: y in a <==> y in b
    ensures a == b
  {
    if a == [] {
      assert forall i :: 0 <= i < |b| ==> b[i] in b;
    } else {
      assert a[0] in a;
      assert a[0] in b;
      assert b != [];
      assert b[0] in a;
      assert a[0] == b[0];
      forall y
        ensures y in a[1..] <==> y in b[1..]
      {
        if y in a[1..] {
          assert y != a[0];
          assert y in a;
        }
        if y in b[1..] {
          assert y != b[0];
          assert y in b;
        }
      }
      StrictlyIncreasingUnique(a[1..], b[1..]);
      assert a == [a[0]] + a[1..];
      assert b == [b[0]] + b[1..];
    }
  }

  /** Sorting a sequence that is already strictly increasing returns it unchanged. */
  lemma SortDistinctOfSorted(xs: seq<int>)
    requires StrictlyIncreasing(xs)
    ensures SortDistinct(xs) == xs
  {
    StrictlyIncreasingUnique(SortDistinct(xs), xs);
  }
}

=== FILE: time_of_day.dfy ===
/** Wall-clock times as the booking widget handles them: `HH:MM` strings on
    one side, minute-of-day numbers on the other (BookingWidget.jsx,
    `timeStringToMinutes` and `minutesToTimeString`). */
module TimeOfDay {
  import opened Wrappers

  predicate IsDigit(c: char) { '0' <= c <= '9' }

  function DigitValue(c: char): (n: nat)
    requires IsDigit(c)
    ensures n < 10
  {
    (c as int) - ('0' as int)
  }

  function DigitChar(n: nat): (c: char)
    requires n < 10
    ensures IsDigit(c) && DigitValue(c) == n
  {
    ('0' as int + n) as char
  }

  predicate AllDigits(s: string)
  {
    forall i :: 0 <= i < |s| ==> IsDigit(s[i])
  }

  /** The value of a string of decimal digits; the empty string is 0, as
      JavaScript's `Number("")` is. */
  function DigitsValue(s: string): nat
    requires AllDigits(s)
  {
    if s == [] then 0 else DigitsValue(s[..|s| - 1]) * 10 + DigitValue(s[|s| - 1])
  }

  /** JavaScript's `Number(s)` restricted to plain decimal strings: a digit
      string is its value, anything else is `NaN` (None). */
  function NumberOf(s: string): (r: Option<nat>)
    ensures r.Some? <==> AllDigits(s)
    ensures r.Some? ==> r.value == DigitsValue(s)
  {
    if AllDigits(s) then Some(DigitsValue(s)) else None
  }

  /** `n.toString()` for a natural number: its decimal digits, no leading zero. */
  function Decimal(n: nat): (r: string)
    ensures AllDigits(r) && |r| >= 1
    ensures |r| == 1 || r[0] != '0'
    ensures DigitsValue(r) == n
    ensures n < 10 ==> |r| == 1
    ensures 10 <= n < 100 ==> |r| == 2
  {
    if n < 10 then [DigitChar(n)]
    else
      var prefix := Decimal(n / 10);
      var r := prefix + [DigitChar(n % 10)];
      assert r[..|r| - 1] == prefix;
      r
  }

  /** `s.padStart(2, "0")`: left-pads with zeros to two characters, never truncates. */
  function PadStart2(s: string): string
  {
    if |s| >= 2 then s else seq(2 - |s|, _ => '0') + s
  }

  /** A leading zero does not change the value of a digit string. */
  lemma {:induction false} LeadingZero(s: string)
    requires AllDigits(s)
    ensures AllDigits(['0'] + s) && DigitsValue(['0'] + s) == DigitsValue(s)
  {
    var z := ['0'] + s;
    assert AllDigits(z);
    if s != [] {
      assert z[..|z| - 1] == ['0'] + s[..|s| - 1];
      LeadingZero(s[..|s| - 1]);
    } else {
      assert z[..|z| - 1] == [];
    }
  }

  /** Padding a decimal keeps it a digit string of the same value. */
  lemma PadDecimal(n: nat)
    ensures AllDigits(PadStart2(Decimal(n)))
    ensures DigitsValue(PadStart2(Decimal(n))) == n
    ensures n < 100 ==> |PadStart2(Decimal(n))| == 2
  {
    var d := Decimal(n);
    if |d| < 2 {
      assert PadStart2(d) == ['0'] + d;
      LeadingZero(d);
    }
  }

  /** `minutesToTimeString`: hours `floor(m / 60)` and minutes `m % 60`, each
      zero-padded to two digits, joined by a colon. */
  function FormatTime(m: nat): (r: string)
    ensures ':' in r
    ensures m < 6000 ==> IsHHMM(r) && HHMMValue(r) == m
  {
    FormattedFields(m);
    PadStart2(Decimal(m / 60)) + ":" + PadStart2(Decimal(m % 60))
  }

  lemma FormattedFields(m: nat)
    ensures var r := PadStart2(Decimal(m / 60)) + ":" + PadStart2(Decimal(m % 60));
      m < 6000 ==> IsHHMM(r) && HHMMValue(r) == m
  {
    PadDecimal(m / 60);
    PadDecimal(m % 60);
    var r := PadStart2(Decimal(m / 60)) + ":" + PadStart2(Decimal(m % 60));
    if m < 6000 {
      assert r[..2] == PadStart2(Decimal(m / 60));
      assert r[3..] == PadStart2(Decimal(m % 60));
    }
  }

  /** A canonical time string: two digits, a colon, two digits, with the
      minutes below 60. */
  predicate IsHHMM(s: string)
  {
    && |s| == 5
    && s[2] == ':'
    && AllDigits(s[..2]) && AllDigits(s[3..])
    && DigitsValue(s[3..]) < 60
  }

  /** The minute of day a canonical time string denotes. */
  function HHMMValue(s: string): nat
    requires IsHHMM(s)
  {
    DigitsValue(s[..2]) * 60 + DigitsValue(s[3..])
  }

  /** The text before the first colon (all of `s` when it has none), which is
      the first field of `s.split(":")`. */
  function UpToColon(s: string): (r: string)
    ensures r <= s && ':' !in r
    ensures |r| < |s| ==> s[|r|] == ':'
    ensures ':' in s ==> |r| < |s|
  {
    if s == [] || s[0] == ':' then [] else [s[0]] + UpToColon(s[1..])
  }

  /** `timeStringToMinutes`: the first two colon-separated fields read as
      numbers, hours times 60 plus minutes. A string without a colon leaves
      the minutes `undefined`, and a non-numeric field is `NaN`; both make
      the result `NaN` (None). */
  function ParseTime(s: string): (r: Option<nat>)
    ensures ':' !in s ==> r.None?
  {
    if ':' !in s then None
    else
      var h := UpToColon(s);
      var m := UpToColon(s[|h| + 1..]);
      match (NumberOf(h), NumberOf(m))
      case (Some(hours), Some(minutes)) => Some(hours * 60 + minutes)
      case _ => None
  }

  /** A canonical time string parses to the minute of day it denotes. */
  lemma ParseCanonical(s: string)
    requires IsHHMM(s)
    ensures ParseTime(s) == Some(HHMMValue(s))
  {
    HHMMFields(s);
  }

  /** The two fields of a canonical time string are what `split(":")` yields. */
  lemma HHMMFields(s: string)
    requires IsHHMM(s)
    ensures UpToColon(s) == s[..2]
    ensures UpToColon(s[3..]) == s[3..]
  {
    assert s[0] != ':' && s[1] != ':';
    assert UpToColon(s[2..]) == [];
    assert s[1..][1..] == s[2..];
    assert UpToColon(s[1..]) == [s[1]];
    assert s[..2] == [s[0], s[1]];
    var t := s[3..];
    assert t[0] != ':' && t[1] != ':';
    assert t[1..][1..] == [];
    assert UpToColon(t[1..]) == [t[1]];
    assert t == [t[0], t[1]];
  }

  /** A string of two digits with no colon, joined to another by a colon,
      splits back into the two parts. */
  lemma {:induction false} SplitJoined(a: string, b: string)
    requires ':' !in a && ':' !in b
    ensures UpToColon(a + ":" + b) == a
    ensures UpToColon(b) == b
  {
    if a != [] {
      assert (a + ":" + b)[1..] == a[1..] + ":" + b;
      SplitJoined(a[1..], b);
    }
    UpToColonWhole(b);
  }

  lemma {:induction false} UpToColonWhole(b: string)
    requires ':' !in b
    ensures UpToColon(b) == b
  {
    if b != [] {
      UpToColonWhole(b[1..]);
    }
  }

  /** Formatting then parsing returns the minute of day, for every natural
      number (hours of three or more digits parse back too). */
  lemma FormatThenParse(m: nat)
    ensures ParseTime(FormatTime(m)) == Some(m)
  {
    PadDecimal(m / 60);
    PadDecimal(m % 60);
    ParseJoined(PadStart2(Decimal(m / 60)), PadStart2(Decimal(m % 60)));
  }

  /** Two digit strings joined by a colon parse as hours and minutes. */
  lemma ParseJoined(h: string, mm: string)
    requires AllDigits(h) && AllDigits(mm)
    ensures ParseTime(h + ":" + mm) == Some(DigitsValue(h) * 60 + DigitsValue(mm))
  {
    DigitsHaveNoColon(h);
    DigitsHaveNoColon(mm);
    SplitJoined(h, mm);
    var s := h + ":" + mm;
    assert s[|h|] == ':';
    assert s[|h| + 1..] == mm;
    ParseFields(s, h, mm);
  }

  lemma ParseFields(s: string, h: string, mm: string)
    requires ':' in s && UpToColon(s) == h
    requires UpToColon(s[|h| + 1..]) == mm
    requires AllDigits(h) && AllDigits(mm)
    ensures ParseTime(s) == Some(DigitsValue(h) * 60 + DigitsValue(mm))
  {
  }

  lemma DigitsHaveNoColon(s: string)
    requires AllDigits(s)
    ensures ':' !in s
  {
    assert forall i :: 0 <= i < |s| ==> s[i] != ':';
  }

  /** Parsing then formatting a canonical time string gives the string back,
      so `FormatTime` is a bijection between minutes 0..5999 and canonical
      `HH:MM` strings. */
  lemma ParseThenFormat(s: string)
    requires IsHHMM(s)
    ensures ParseTime(s).Some? && ParseTime(s).value < 6000
    ensures FormatTime(ParseTime(s).value) == s
  {
    ParseCanonical(s);
    HHMMValueBelow(s);
    HHMMInjective(FormatTime(HHMMValue(s)), s);
  }

  lemma HHMMValueBelow(s: string)
    requires IsHHMM(s)
    ensures HHMMValue(s) < 6000
  {
    assert s[..2] == [s[0], s[1]];
    TwoDigits(s[..2]);
  }

  /** Distinct canonical times denote distinct minutes. */
  lemma HHMMInjective(r: string, s: string)
    requires IsHHMM(r) && IsHHMM(s) && HHMMValue(r) == HHMMValue(s)
    ensures r == s
  {
    assert r[..2] == [r[0], r[1]] && s[..2] == [s[0], s[1]];
    assert r[3..] == [r[3], r[4]] && s[3..] == [s[3], s[4]];
    var hr, hs := DigitsValue(r[..2]), DigitsValue(s[..2]);
    var mr, ms := DigitsValue(r[3..]), DigitsValue(s[3..]);
    assert hr * 60 + mr == hs * 60 + ms;
    assert hr == (hr * 60 + mr) / 60 && hs == (hs * 60 + ms) / 60;
    SameTwoDigits(r[..2], s[..2]);
    SameTwoDigits(r[3..], s[3..]);
    assert r == r[..2] + [r[2]] + r[3..];
    assert s == s[..2] + [s[2]] + s[3..];
  }

  lemma TwoDigits(s: string)
    requires |s| == 2 && AllDigits(s)
    ensures DigitsValue(s) == DigitValue(s[0]) * 10 + DigitValue(s[1])
    ensures DigitsValue(s) < 100
  {
    assert s[..|s| - 1] == s[..1];
    assert s[..1][..0] == [];
    assert DigitsValue(s[..1]) == DigitValue(s[0]);
  }

  /** A five-character string of the form `DD:DD` with a minutes tens digit
      below 6 is canonical, and its value can be read off its characters. */
  lemma CanonicalFromChars(s: string)
    requires |s| == 5 && s[2] == ':'
    requires IsDigit(s[0]) && IsDigit(s[1]) && IsDigit(s[3]) && IsDigit(s[4])
    requires DigitValue(s[3]) < 6
    ensures IsHHMM(s)
    ensures ParseTime(s) == Some(DigitValue(s[0]) * 600 + DigitValue(s[1]) * 60 + DigitValue(s[3]) * 10 + DigitValue(s[4]))
  {
    assert s[..2] == [s[0], s[1]];
    assert s[3..] == [s[3], s[4]];
    TwoDigits(s[..2]);
    TwoDigits(s[3..]);
    ParseCanonical(s);
  }

  lemma FormatTimeNonEmpty(m: nat)
    ensures FormatTime(m) != ""
  {
    assert ':' in FormatTime(m);
  }

  /** A canonical time is what formatting its own value produces. */
  lemma FormatOfCanonical(m: nat, s: string)
    requires IsHHMM(s) && ParseTime(s) == Some(m)
    ensures FormatTime(m) == s
  {
    ParseThenFormat(s);
  }

  /** Two two-digit strings with the same value are the same string. */
  lemma SameTwoDigits(a: string, b: string)
    requires |a| == 2 && AllDigits(a) && |b| == 2 && AllDigits(b)
    requires DigitsValue(a) == DigitsValue(b)
    ensures a == b
  {
    TwoDigits(a);
    TwoDigits(b);
    assert DigitValue(a[0]) == DigitValue(b[0]);
    assert a[0] == b[0] && a[1] == b[1];
  }
}

=== FILE: wrappers.dfy ===
/** The conventional Some/None datatype. In this model `None` stands for a
    JavaScript value that is absent: `null`, `undefined` or `NaN`. */
module Wrappers {

  datatype Option<+T> = None | Some(value: T) {

    /** The given field when present, otherwise the current value: the
        `changes.x || config.x` merge of a configuration update. */
    function GetOr(default: T): T {
      match this
      case Some(v) => v
      case None => default
    }
  }
}
